=== FILE: README.md ===
# Memory pool model

A Dafny model of `mem-pool.c`. This is a single-owner arena ("memory pool")
allocator. Each pool keeps a list of large blocks. Small requests are served by
bumping a block's `next_free` cursor. When no block has room, a request of at
least half the standard block size gets a buffer of its own, tracked in the
pool's `custom` / `custom_end` arrays. Any other request grows the list by one
standard block. The pool can answer whether it owns an address. Two pools can
be merged, which leaves the source empty and reusable.

The model is functional. A `Pool` is an immutable value:

- `blocks`: a `seq<Block>`, head first, where a `Block` is `(space, nextFree, end)`.
- `blockAlloc`: the growth size.
- `custom`: a `seq<Range>` of oversized buffers.
- `poolAlloc`: the byte counter.

Addresses are integers. The system allocator `xmalloc` is a bump counter,
`Heap(top)`, so every buffer it returns is fresh. Each operation returns the
new pool, the new heap and the pointer handed back. When the code checks a
size for overflow (`st_add`, `st_mult`) the process dies, and the model
returns that as `Die(SizeOverflow)`.

Two defects in the allocation path are modelled twice, as written and
corrected (see "## Findings"). `MemPool.Alloc` and `MemPool.Calloc`, and the
lemmas about them, describe the corrected program:

- its rounding dies on overflow where the code wraps;
- its oversized path returns the new buffer, where the code returns a stale
  array slot.

`MemPool.AllocAsWritten` is the code as it stands.
`AllocFacts.AllocAsWrittenAgrees` states that, wherever the rounded size fits
in size_t, the two differ only in the oversized path's pointer.
`AllocFacts.AllocAsWrittenWraps` states what the code does where it does not fit.

`sizeof(uintmax_t)` is `ALIGN = 8`. `sizeof(struct mp_block)` is `HEADER = 24`,
which is three pointers on an LP64 target; `mem-pool.h` is not part of this
model. `SIZE_MAX` is 2^64 - 1. The growth size is `GROWTH = 1024*1024 - HEADER`.

Modules:

- `Memory` (memory.dfy): constants, rounding and `xmalloc`.
- `Ranges` (ranges.dfy): address ranges and disjointness.
- `MemPool` (pool.dfy): the data model and every operation.
- `AllocFacts` (alloc_facts.dfy): what allocation guarantees.
- `PoolCombine` (combine.dfy): merging two pools.
- `Scenarios` (scenarios.dfy): the pool on concrete inputs.

Facts about the code that the model keeps:

- An oversized buffer gets the rounded length. The rounding at
  mem-pool.c:84-85 happens before the call at line 93.
- The initial block made by `mem_pool_init` holds exactly `initial_size`
  bytes (mem-pool.c:54-55).
- First fit (mem-pool.c:87-89) runs before the size test (line 92). A request
  is served as oversized only when no block has room and its rounded length is
  at least half the growth size. With a 64-byte growth size, a 40-byte request
  on a pool where no block has room always takes that path and never makes a
  block.
- `mem_pool_init` always sets the growth size to `BLOCK_GROWTH_SIZE`
  (mem-pool.c:46). The scenarios with a growth size of 64 or 1024 bytes assume
  a caller has set the `block_alloc` field directly.
- A zero-length request served from a full block returns that block's `end`.
  That block does not own the address. The pool owns it only if another of
  its buffers starts there. Ownership of the returned pointer is therefore
  promised only for requests of at least one byte.

## Model

| member | source | states |
|---|---|---|
| `Memory.AlignUp` | mem-pool.c:83-85 | The rounded length is a multiple of the alignment, at least the request and less than the request plus the alignment. An already aligned length is unchanged. |
| `Memory.AlignUpIsLeast` | mem-pool.c:84-85 | The rounded length is the least multiple of the alignment that is at least the request. |
| `Memory.AlignUpAsWritten` | mem-pool.c:84-85 | The C rounding in size_t arithmetic always gives an aligned size_t. |
| `Memory.AlignUpAsWrittenWraps` | mem-pool.c:84-85 | As written, every request whose rounded size does not fit in size_t is unaligned and rounds to 0, below the request. |
| `Memory.AlignUpAsWrittenAgrees` | mem-pool.c:84-85 | Whenever the rounded length fits in size_t, the C rounding gives the intended length. |
| `Memory.RoundedLen` | mem-pool.c:84-85 | The corrected rounding returns an aligned size_t that is at least the request and the least such. It fails with SizeOverflow exactly when no aligned size_t is at least the request. |
| `Memory.Malloc` | mem-pool.c:30 | xmalloc returns an aligned buffer at or above every earlier buffer, and the heap top moves past its end. |
| `MemPool.AllocBlock` | mem-pool.c:10-22 | A new empty block of capacity block_alloc is prepended above the old heap top. The rest of the list is unchanged and pool_alloc grows by header plus capacity. It dies exactly when header plus capacity overflows size_t. |
| `MemPool.AllocCustom` | mem-pool.c:24-37 | Corrected oversized path: the blocks are untouched and one fresh range [p, p+len) is appended to the custom list. pool_alloc grows by len and p is returned. |
| `MemPool.AllocCustomAsWritten` | mem-pool.c:31-36 | As written, the oversized path does the same bookkeeping as the corrected one, but its returned pointer is an unrelated slot value. |
| `MemPool.FirstFit` | mem-pool.c:87-89 | Returns the first block in list order with end - next_free >= len, or none when no block has that much room. |
| `MemPool.Alloc` | mem-pool.c:78-101 | Corrected program. Dies exactly when the rounding overflows, or when a needed new block's size overflows. Otherwise the growth size is kept, and the counter, the heap top and both lists only grow. |
| `MemPool.AllocAsWritten` | mem-pool.c:78-101 | The code as written: the wrapping rounding, first fit, the oversized path returning the stale slot, or growth. It dies only when a new block's size overflows, and it keeps the growth size and never lowers the heap top or the counter. |
| `MemPool.Calloc` | mem-pool.c:103-109 | Corrected program. count*size beyond SIZE_MAX is fatal. Otherwise the call is exactly an allocation of count*size bytes. |
| `MemPool.Init` | mem-pool.c:39-57 | An existing pool is left unchanged. A new pool has the standard growth size, no custom ranges, and no blocks with a zero counter. With initial_size > 0 it instead has one empty block of exactly initial_size and a counter of HEADER + initial_size. Header overflow is fatal. |
| `MemPool.Contains` | mem-pool.c:111-129 | True exactly when the address lies in [space, end) of some block or in [custom[i], custom_end[i]) of some oversized buffer. |
| `AllocFacts.GrowsKeeps` | mem-pool.c:98-99 | A pool that only advances cursors and adds blocks or buffers keeps owning every address it owned. It keeps every address it had handed out. |
| `AllocFacts.UsedIsOwned` | mem-pool.c:111-129 | In a valid pool, every byte handed out to a caller lies in a block's usable part or an oversized buffer, so the pool reports it as owned. |
| `AllocFacts.BumpSound` | mem-pool.c:98-100 | Bumping a block with room keeps the block invariant (space <= next_free <= end, offset aligned). It returns an aligned pointer to bytes never handed out before, which are now handed out and owned. |
| `AllocFacts.AllocBlockSound` | mem-pool.c:14-19 | A new block keeps the pool valid. Its buffer lies above the old heap top and is apart from every other buffer. |
| `AllocFacts.AllocCustomSound` | mem-pool.c:27-34 | An oversized buffer keeps the pool valid. Its bytes were not handed out before, and are handed out and owned afterwards. |
| `AllocFacts.AllocSound` | mem-pool.c:78-101 | Corrected program. Every successful allocation keeps the pool valid, returns an aligned pointer to AlignUp(len) fresh bytes the pool now owns, and loses nothing owned before. Only buffers above the old heap top are added. |
| `AllocFacts.AllocServesFirstFit` | mem-pool.c:87-100 | When block i is the first with room, its old cursor is returned and its cursor advances by the rounded length. All other blocks, the custom list, the counter and the heap are unchanged. |
| `AllocFacts.AllocOversized` | mem-pool.c:91-93 | Corrected program. When no block fits and the rounded length is at least block_alloc/2, the blocks are unchanged. One range [p, p+len) above the heap top is appended to the custom list, and the counter grows by len. |
| `AllocFacts.AllocGrows` | mem-pool.c:95-100 | Otherwise one block of capacity block_alloc is prepended and the pointer returned is its space. Its cursor ends at space + len and the counter grows by HEADER + block_alloc. |
| `AllocFacts.LargeNeverGrows` | mem-pool.c:91-93 | Corrected program. A request of at least half the growth size never adds a block. |
| `AllocFacts.AllocKeepsSeparate` | mem-pool.c:14-15 | Allocating from one pool keeps a second pool on the same system allocator valid and apart from it. |
| `AllocFacts.SuccessiveAllocationsApart` | mem-pool.c:98-99 | Corrected program. The byte ranges returned by two allocations in a row do not overlap. |
| `AllocFacts.SeparateExcludes` | mem-pool.c:111-129 | An address owned by one pool is not owned by any pool apart from it. |
| `AllocFacts.CallocSound` | mem-pool.c:103-108 | Corrected program. A successful calloc keeps the pool valid and returns an aligned pointer to count*size fresh bytes the pool owns. |
| `AllocFacts.InitSound` | mem-pool.c:39-57 | A freshly created pool satisfies the pool invariant. |
| `AllocFacts.InitKeepsSeparate` | mem-pool.c:39-57 | A pool created on the same system allocator as an existing valid pool is apart from it and leaves it valid. This is the base case for the separation that allocation and merging keep. |
| `AllocFacts.AllocAsWrittenAgrees` | mem-pool.c:78-101 | Whenever the rounded size fits in size_t, the code as written and the corrected allocation agree on dying, on the pool and on the heap. They return the same pointer, except on the oversized path, where the code returns the stale slot. |
| `AllocFacts.AllocAsWrittenWraps` | mem-pool.c:84-88 | Whenever the rounded size does not fit, the corrected allocation dies. The code as written serves a zero-byte request instead: from a pool whose head block is in order, it returns that block's cursor and changes nothing. |
| `PoolCombine.Combine` | mem-pool.c:131-161 | Merging gives dst's blocks followed by src's, and dst's custom ranges followed by src's, built up one by one. The counters are summed and src is left empty with its growth size. |
| `PoolCombine.CombineOwnership` | mem-pool.c:136-150 | After merging, dst owns an address exactly when dst or src did, and has handed it out exactly when one of them had. src owns nothing. |
| `PoolCombine.CombineSound` | mem-pool.c:131-161 | Merging two valid, mutually apart pools gives a valid dst that keeps every block and buffer of both. src is left valid, and the total byte count is preserved. |
| `PoolCombine.CombineResetsSource` | mem-pool.c:152-160 | The emptied source equals a newly created pool with no initial block. |
| `Scenarios.BasicBump` | mem-pool.c:87-100 | On a new pool, two 16-byte requests grow one block. The second pointer is the first plus 16, and the pool owns both. |
| `Scenarios.FortyOfSixtyFourIsOversized` | mem-pool.c:91-93 | Corrected program. With a 64-byte growth size (the `block_alloc` field set by a caller), on a pool with no blocks, two 40-byte requests each get an oversized buffer and no block is made. |
| `Scenarios.OversizedBypass` | mem-pool.c:91-93 | With a 1024-byte growth size (the `block_alloc` field set by a caller) and no block, a 600-byte request adds one oversized buffer and no block. |
| `Scenarios.CallocOverflowDies` | mem-pool.c:105 | calloc(SIZE_MAX, 2) dies with a size overflow. |
| `Scenarios.HugeRequestSharesAddress` | mem-pool.c:84-100 | On a pool with one 64-byte block, a request of SIZE_MAX - 3 bytes dies in the corrected program. As written, it returns the block's cursor with no bytes behind it, and the next 16-byte request gets the same address. |
| `Scenarios.WrappedRequestGrows` | mem-pool.c:84-95 | A request of SIZE_MAX - 3 bytes is at least half the growth size, and the corrected program dies on it. As written, its rounding wraps to 0, so on a pool without blocks it adds a standard block. |
| `Scenarios.CustomReturnMissesBuffer` | mem-pool.c:31-36 | With a stale slot holding 0, the oversized path as written returns 0, which the pool does not own. The corrected path returns the buffer, which it owns. |

## Left out

- `mem_pool_discard` (mem-pool.c:59-76) is left out. It only frees every block, every oversized buffer, the `custom` and `custom_end` arrays and the pool itself, so it has no result to state. Using a pool after discarding it is undefined behaviour for the caller.
- MemPool.Calloc: the zero fill (`memset`) is not modelled, because the model has no byte contents.
- The capacity fields `alloc` / `alloc_end` and their `ALLOC_GROW` reallocation are left out. The two parallel arrays `custom` / `custom_end` are one sequence of ranges, so their equal length is structural.
- `xmalloc` failure is left out. It kills the process, and the system allocator here always succeeds.
- MemPool.Alloc: `pool_alloc` is an unbounded integer. The C size_t counter would wrap after 2^64 bytes, which no process reaches.
- MemPool.Init: the `struct mem_pool` itself is not drawn from the modelled system allocator. It is not part of any range the pool answers for.
- PoolCombine.Combine: merging a pool into itself is not modelled; it is a caller error. In C, when the pool has a block, line 141 links the block list into a cycle. When the pool has oversized buffers, the loop at lines 147-150 never ends. There `src->nr` is `dst->nr`, which grows on every iteration, so the loop writes past the capacity grown at line 144.
- MemPool.Alloc: `len & (sizeof(uintmax_t) - 1)` is written `len % ALIGN`. The two agree because ALIGN is a power of two.
- Pointer comparisons between unrelated objects, struct layout and the actual type sizes are replaced by integer addresses and the constants above.
- MemPool.Alloc: models the corrected program. Its rounding dies on overflow where mem-pool.c:85 wraps. Its oversized path returns the new buffer where mem-pool.c:36 returns a stale slot. MemPool.AllocAsWritten is the code as written.
- MemPool.Calloc: built on the corrected MemPool.Alloc, so it inherits both corrections.
- AllocFacts.AllocSound: states the corrected program. For the code as written, its pointer clauses hold only off the oversized path and when the rounded size fits (AllocFacts.AllocAsWrittenAgrees).
- AllocFacts.AllocOversized: states the corrected program. As written, the pointer returned is the stale slot, not the start of the new range.
- AllocFacts.SuccessiveAllocationsApart: states the corrected program. As written, an oversized request's pointer is the stale slot, and a wrapped request shares its address with the next one (Scenarios.HugeRequestSharesAddress).
- AllocFacts.CallocSound: states the corrected program, through MemPool.Calloc.
- AllocFacts.LargeNeverGrows: states the corrected program. As written, a request of SIZE_MAX - 3 bytes on a pool created with no initial block wraps to 0 at mem-pool.c:85 and adds a standard block at line 95 (Scenarios.WrappedRequestGrows).
- Scenarios.FortyOfSixtyFourIsOversized: states the corrected program. As written, both returned pointers are stale slots, not the ranges' starts.
- Concurrency is left out: the pool is single-owner and unsynchronised.

## Findings

| source | as written | input that shows it | evidently intended | confidence | as-written member | corrected member |
|---|---|---|---|---|---|---|
| mem-pool.c:31-36 | `mem_pool_alloc_custom` returns `custom[nr]` after `nr` was incremented. That is the slot past the entry just written, which is uninitialised or past the array's end. | A new pool at heap top 4096 takes a 1 MiB oversized request. If the stale slot holds 0, the caller gets 0, which the pool does not own. The buffer is at 4096. | Return the buffer just allocated, `p`. | high; not executed | `MemPool.AllocCustomAsWritten`, `MemPool.AllocAsWritten`, `Scenarios.CustomReturnMissesBuffer` | `MemPool.AllocCustom`, `MemPool.Alloc` |
| mem-pool.c:84-85 | Rounding a length up to the alignment adds in size_t and can wrap. | `len = SIZE_MAX - 3` rounds to 0. On a pool with one 64-byte block, the caller gets the block's cursor with no bytes behind it, and the next 16-byte request gets the same address. On a pool without blocks, the same request is treated as below the growth threshold and adds a standard block. | Treat the overflow as fatal, like the checked sums and products elsewhere in the pool. | medium; not executed | `Memory.AlignUpAsWritten`, `Memory.AlignUpAsWrittenWraps`, `MemPool.AllocAsWritten`, `AllocFacts.AllocAsWrittenWraps`, `Scenarios.HugeRequestSharesAddress`, `Scenarios.WrappedRequestGrows` | `Memory.RoundedLen`, `MemPool.Alloc` |

=== FILE: alloc_facts.dfy ===
/**
  What allocation promises: the pool invariant is kept, every result is
  aligned, the bytes handed out were never handed out before and are owned
  from then on, nothing already owned is lost, and pools drawing on the same
  system allocator stay apart.
 */
module AllocFacts {
  import opened Memory
  import opened Ranges
  import opened MemPool

  /** c is block b later in its life: same bounds, cursor no lower. */
  predicate Extends(b: Block, c: Block) {
    c.space == b.space && c.end == b.end && b.nextFree <= c.nextFree
  }

  /** q keeps everything p holds: every block of p, possibly with an advanced
      cursor, and every oversized buffer of p. */
  ghost predicate Grows(p: Pool, q: Pool) {
    && (forall r :: r in p.custom ==> r in q.custom)
    && (forall i :: 0 <= i < |p.blocks| ==> KeptIn(p.blocks[i], q.blocks))
  }

  /** Some block of bs is b later in its life. */
  ghost predicate KeptIn(b: Block, bs: seq<Block>) {
    exists k :: 0 <= k < |bs| && Extends(b, bs[k])
  }

  /** The n bytes at ptr had not been handed out by `before` and have been by `after`, which owns them. */
  ghost predicate Carves(before: Pool, after: Pool, ptr: int, n: int) {
    forall m :: ptr <= m < ptr + n ==> !Used(before, m) && Used(after, m) && Owns(after, m)
  }

  lemma GrowsTransitive(p: Pool, q: Pool, s: Pool)
    requires Grows(p, q) && Grows(q, s)
    ensures Grows(p, s)
  {
    assert forall r :: r in p.custom ==> r in s.custom;
    forall i | 0 <= i < |p.blocks|
      ensures KeptIn(p.blocks[i], s.blocks)
    {
      var k :| 0 <= k < |q.blocks| && Extends(p.blocks[i], q.blocks[k]);
      assert 0 <= k < |q.blocks|;
      var l :| 0 <= l < |s.blocks| && Extends(q.blocks[k], s.blocks[l]);
      assert Extends(p.blocks[i], s.blocks[l]);
    }
  }

  /** A pool that grows keeps owning, and keeps counting as handed out, every address it did. */
  lemma GrowsKeeps(p: Pool, q: Pool, m: int)
    requires Grows(p, q)
    ensures Owns(p, m) ==> Owns(q, m)
    ensures Used(p, m) ==> Used(q, m)
  {
    if Owns(p, m) {
      var r :| r in Usables(p.blocks) + p.custom && In(m, r);
      if r in p.custom {
        assert r in Usables(q.blocks) + q.custom;
      } else {
        var i :| 0 <= i < |p.blocks| && Usables(p.blocks)[i] == r;
        var k :| 0 <= k < |q.blocks| && Extends(p.blocks[i], q.blocks[k]);
        assert Usables(q.blocks)[k] == r;
        assert r in Usables(q.blocks) + q.custom;
      }
    }
    if Used(p, m) {
      var r :| r in CarvedRanges(p.blocks) + p.custom && In(m, r);
      if r in p.custom {
        assert r in CarvedRanges(q.blocks) + q.custom;
      } else {
        var i :| 0 <= i < |p.blocks| && CarvedRanges(p.blocks)[i] == r;
        var k :| 0 <= k < |q.blocks| && Extends(p.blocks[i], q.blocks[k]);
        var r' := CarvedRanges(q.blocks)[k];
        assert In(m, r');
        assert r' in CarvedRanges(q.blocks) + q.custom;
      }
    }
  }

  /** Every owned address lies inside one of the pool's buffers. */
  lemma OwnedInFootprint(p: Pool, m: int) returns (k: nat)
    requires Owns(p, m)
    ensures k < |Buffers(p)| && In(m, Buffers(p)[k])
  {
    var r :| r in Usables(p.blocks) + p.custom && In(m, r);
    if r in p.custom {
      var j :| 0 <= j < |p.custom| && p.custom[j] == r;
      k := |p.blocks| + j;
    } else {
      var i :| 0 <= i < |p.blocks| && Usables(p.blocks)[i] == r;
      k := i;
    }
  }

  /** Whatever a valid pool has handed out, it owns. */
  lemma UsedIsOwned(p: Pool, h: Heap, m: int)
    requires Valid(p, h) && Used(p, m)
    ensures Owns(p, m)
  {
    var r :| r in CarvedRanges(p.blocks) + p.custom && In(m, r);
    if r in p.custom {
      assert r in Usables(p.blocks) + p.custom;
    } else {
      var i :| 0 <= i < |p.blocks| && CarvedRanges(p.blocks)[i] == r;
      assert BlockOk(p.blocks[i]);
      assert Usables(p.blocks)[i] in Usables(p.blocks) + p.custom;
    }
  }

  /** A valid pool owns nothing at or above the system allocator's top. */
  lemma NothingAbove(p: Pool, h: Heap, m: int)
    requires Valid(p, h) && h.top <= m
    ensures !Owns(p, m) && !Used(p, m)
  {
    var F := Buffers(p);
    forall r | r in Usables(p.blocks) + p.custom ensures !In(m, r) {
      if r in p.custom {
        var j :| 0 <= j < |p.custom| && p.custom[j] == r;
        assert F[|p.blocks| + j] == r;
      } else {
        var i :| 0 <= i < |p.blocks| && Usables(p.blocks)[i] == r;
        assert F[i] == p.blocks[i].Footprint();
      }
    }
    forall r | r in CarvedRanges(p.blocks) + p.custom ensures !In(m, r) {
      if r in p.custom {
        var j :| 0 <= j < |p.custom| && p.custom[j] == r;
        assert F[|p.blocks| + j] == r;
      } else {
        var i :| 0 <= i < |p.blocks| && CarvedRanges(p.blocks)[i] == r;
        assert F[i] == p.blocks[i].Footprint();
        assert BlockOk(p.blocks[i]);
      }
    }
  }

  /** The bytes of a block from its cursor up have not been handed out. */
  lemma NotUsedFromCursor(p: Pool, h: Heap, i: nat, m: int)
    requires Valid(p, h) && i < |p.blocks|
    requires p.blocks[i].nextFree <= m < p.blocks[i].end
    ensures !Used(p, m)
  {
    var F := Buffers(p);
    assert F[i] == p.blocks[i].Footprint();
    assert In(m, F[i]);
    forall r | r in CarvedRanges(p.blocks) + p.custom ensures !In(m, r) {
      if r in p.custom {
        var j :| 0 <= j < |p.custom| && p.custom[j] == r;
        assert F[|p.blocks| + j] == r;
        assert Apart(F[i], F[|p.blocks| + j]);
      } else {
        var k :| 0 <= k < |p.blocks| && CarvedRanges(p.blocks)[k] == r;
        if k != i {
          assert F[k] == p.blocks[k].Footprint();
          assert BlockOk(p.blocks[k]);
          assert Apart(F[i], F[k]);
        }
      }
    }
  }

  /** Handing out bytes of block i keeps its footprint, and so every footprint. */
  lemma BumpKeepsFootprint(p: Pool, h: Heap, i: nat, n: nat)
    requires i < |p.blocks| && p.blocks[i].Fits(n)
    ensures Buffers(Bump(p, h, i, n).pool) == Buffers(p)
  {
    var q := Bump(p, h, i, n).pool;
    assert Footprints(q.blocks) == Footprints(p.blocks);
  }

  /** Bump hands out n fresh, aligned bytes at the cursor of block i and keeps the pool valid. */
  lemma BumpSound(p: Pool, h: Heap, i: nat, n: nat)
    requires Valid(p, h) && i < |p.blocks| && p.blocks[i].Fits(n) && Aligned(n)
    ensures var a := Bump(p, h, i, n);
      && Valid(a.pool, a.heap)
      && a.heap == h
      && Aligned(a.ptr)
      && Grows(p, a.pool)
      && Buffers(a.pool) == Buffers(p)
      && Carves(p, a.pool, a.ptr, n)
  {
    var a := Bump(p, h, i, n);
    var b := p.blocks[i];
    var q := a.pool;
    BumpKeepsFootprint(p, h, i, n);
    assert BlockOk(b);
    AlignedSum(b.space, b.nextFree - b.space);
    AlignedSum(b.nextFree - b.space, n);
    assert BlockOk(q.blocks[i]);
    assert forall k :: 0 <= k < |p.blocks| ==> Extends(p.blocks[k], q.blocks[k]);
    forall m | a.ptr <= m < a.ptr + n
      ensures !Used(p, m) && Used(q, m) && Owns(q, m)
    {
      NotUsedFromCursor(p, h, i, m);
      assert CarvedRanges(q.blocks)[i] in CarvedRanges(q.blocks) + q.custom;
      assert In(m, CarvedRanges(q.blocks)[i]);
      assert Usables(q.blocks)[i] in Usables(q.blocks) + q.custom;
      assert In(m, Usables(q.blocks)[i]);
    }
  }

  /** A new block is fresh: it keeps the pool valid and grows it. */
  lemma AllocBlockSound(p: Pool, h: Heap, blockAlloc: nat)
    requires Valid(p, h) && HEADER + blockAlloc <= SIZE_MAX
    ensures var a := AllocBlock(p, h, blockAlloc).value;
      && Valid(a.pool, a.heap)
      && h.top <= a.heap.top
      && Grows(p, a.pool)
      && Buffers(a.pool) == [a.pool.blocks[0].Footprint()] + Buffers(p)
      && h.top <= a.pool.blocks[0].Footprint().start
  {
    var a := AllocBlock(p, h, blockAlloc).value;
    var q := a.pool;
    var R := q.blocks[0].Footprint();
    assert Footprints(q.blocks) == [R] + Footprints(p.blocks);
    assert Buffers(q) == [R] + Buffers(p);
    BelowRaise(Buffers(p), h.top, a.heap.top);
    FreshApart(Buffers(p), h.top, R);
    PairwiseApartConcat([R], Buffers(p));
    assert forall k :: 0 <= k < |p.blocks| ==> q.blocks[k + 1] == p.blocks[k];
    assert forall k :: 0 <= k < |p.blocks| ==> Extends(p.blocks[k], q.blocks[k + 1]);
  }

  /** An oversized buffer is fresh: it keeps the pool valid, grows it, and is handed out whole. */
  lemma AllocCustomSound(p: Pool, h: Heap, n: nat)
    requires Valid(p, h)
    ensures var a := AllocCustom(p, h, n);
      && Valid(a.pool, a.heap)
      && h.top <= a.heap.top
      && Grows(p, a.pool)
      && Buffers(a.pool) == Buffers(p) + [Range(a.ptr, a.ptr + n)]
      && Carves(p, a.pool, a.ptr, n)
  {
    var a := AllocCustom(p, h, n);
    var q := a.pool;
    var R := Range(a.ptr, a.ptr + n);
    assert Buffers(q) == Buffers(p) + [R];
    BelowRaise(Buffers(p), h.top, a.heap.top);
    FreshApart(Buffers(p), h.top, R);
    PairwiseApartConcat(Buffers(p), [R]);
    assert forall k :: 0 <= k < |p.blocks| ==> Extends(p.blocks[k], q.blocks[k]);
    forall m | a.ptr <= m < a.ptr + n
      ensures !Used(p, m) && Used(q, m) && Owns(q, m)
    {
      NothingAbove(p, h, m);
      assert R in CarvedRanges(q.blocks) + q.custom;
      assert R in Usables(q.blocks) + q.custom;
    }
  }

  /** What every successful allocation of n bytes from p guarantees. */
  ghost predicate SoundStep(p: Pool, h: Heap, a: Alloced, n: nat) {
    && Valid(a.pool, a.heap)
    && Aligned(a.ptr)
    && h.top <= a.heap.top
    && Grows(p, a.pool)
    && Carves(p, a.pool, a.ptr, n)
    && (forall r :: r in Buffers(a.pool) ==> r in Buffers(p) || h.top <= r.start)
  }

  lemma BumpStep(p: Pool, h: Heap, i: nat, n: nat)
    requires Valid(p, h) && i < |p.blocks| && p.blocks[i].Fits(n) && Aligned(n)
    ensures SoundStep(p, h, Bump(p, h, i, n), n)
  {
    BumpSound(p, h, i, n);
  }

  lemma CustomStep(p: Pool, h: Heap, n: nat)
    requires Valid(p, h) && Aligned(n)
    ensures SoundStep(p, h, AllocCustom(p, h, n), n)
  {
    var a := AllocCustom(p, h, n);
    AllocCustomSound(p, h, n);
    assert Buffers(a.pool) == Buffers(p) + [Range(a.ptr, a.ptr + n)];
  }

  lemma GrowStep(p: Pool, h: Heap, n: nat)
    requires Valid(p, h) && Aligned(n) && n < p.blockAlloc / 2 && HEADER + p.blockAlloc <= SIZE_MAX
    ensures AllocBlock(p, h, p.blockAlloc).Ok?
    ensures var g := AllocBlock(p, h, p.blockAlloc).value;
      g.pool.blocks[0].Fits(n) && SoundStep(p, h, Bump(g.pool, g.heap, 0, n), n)
  {
    var g := AllocBlock(p, h, p.blockAlloc).value;
    var a := Bump(g.pool, g.heap, 0, n);
    AllocBlockSound(p, h, p.blockAlloc);
    BumpSound(g.pool, g.heap, 0, n);
    GrowsTransitive(p, g.pool, a.pool);
    forall m | a.ptr <= m < a.ptr + n
      ensures !Used(p, m)
    {
      GrowsKeeps(p, g.pool, m);
    }
  }

  /** mem_pool_alloc keeps the pool valid, returns an aligned pointer to
      AlignUp(len) bytes nobody had before and the pool owns now, keeps every
      earlier allocation, and adds only buffers above the allocator's old top. */
  lemma AllocSound(p: Pool, h: Heap, len: nat, a: Alloced)
    requires Valid(p, h) && len <= SIZE_MAX && Alloc(p, h, len) == Ok(a)
    ensures Valid(a.pool, a.heap)
    ensures Aligned(a.ptr)
    ensures h.top <= a.heap.top
    ensures Grows(p, a.pool)
    ensures Carves(p, a.pool, a.ptr, AlignUp(len))
    ensures len > 0 ==> Owns(a.pool, a.ptr)
    ensures forall r :: r in Buffers(a.pool) ==> r in Buffers(p) || h.top <= r.start
  {
    var n := AlignUp(len);
    assert RoundedLen(len) == Ok(n);
    match FirstFit(p.blocks, n)
    case Some(i) =>
      assert a == Bump(p, h, i, n);
      BumpStep(p, h, i, n);
    case None =>
      if n >= p.blockAlloc / 2 {
        assert a == AllocCustom(p, h, n);
        CustomStep(p, h, n);
      } else {
        GrowStep(p, h, n);
      }
    assert SoundStep(p, h, a, n);
    if len > 0 {
      assert Used(a.pool, a.ptr);
      UsedIsOwned(a.pool, a.heap, a.ptr);
    }
  }

  /** Allocating from one pool leaves a second pool on the same system
      allocator valid, and the two pools apart. */
  lemma AllocKeepsSeparate(p: Pool, other: Pool, h: Heap, len: nat, a: Alloced)
    requires Valid(p, h) && Valid(other, h) && Separate(p, other)
    requires len <= SIZE_MAX && Alloc(p, h, len) == Ok(a)
    ensures Valid(other, a.heap) && Separate(a.pool, other)
  {
    AllocSound(p, h, len, a);
    BelowRaise(Buffers(other), h.top, a.heap.top);
    var F, F', G := Buffers(p), Buffers(a.pool), Buffers(other);
    forall i, j | 0 <= i < |F'| && 0 <= j < |G| ensures Apart(F'[i], G[j]) {
      assert F'[i] in F';
      if F'[i] in F {
        var k :| 0 <= k < |F| && F[k] == F'[i];
      }
    }
  }

  /** Two allocations in a row never overlap. */
  lemma SuccessiveAllocationsApart(p: Pool, h: Heap, len1: nat, len2: nat, a1: Alloced, a2: Alloced)
    requires Valid(p, h) && len1 <= SIZE_MAX && len2 <= SIZE_MAX
    requires Alloc(p, h, len1) == Ok(a1)
    requires Alloc(a1.pool, a1.heap, len2) == Ok(a2)
    ensures Apart(Range(a1.ptr, a1.ptr + AlignUp(len1)), Range(a2.ptr, a2.ptr + AlignUp(len2)))
  {
    AllocSound(p, h, len1, a1);
    AllocSound(a1.pool, a1.heap, len2, a2);
    var r1, r2 := Range(a1.ptr, a1.ptr + AlignUp(len1)), Range(a2.ptr, a2.ptr + AlignUp(len2));
    forall m | In(m, r1) ensures !In(m, r2) {
      assert Used(a1.pool, m);
    }
    ApartFromAddresses(r1, r2);
  }

  /** The addresses of one pool are never reported as owned by a pool apart from it. */
  lemma SeparateExcludes(p: Pool, q: Pool, m: int)
    requires Separate(p, q) && Owns(q, m)
    ensures !Owns(p, m)
  {
    var j := OwnedInFootprint(q, m);
    var F := Buffers(p);
    forall r | r in Usables(p.blocks) + p.custom ensures !In(m, r) {
      if r in p.custom {
        var k :| 0 <= k < |p.custom| && p.custom[k] == r;
        assert F[|p.blocks| + k] == r;
        assert Apart(F[|p.blocks| + k], Buffers(q)[j]);
      } else {
        var i :| 0 <= i < |p.blocks| && Usables(p.blocks)[i] == r;
        assert F[i] == p.blocks[i].Footprint();
        assert Apart(F[i], Buffers(q)[j]);
      }
    }
  }

  /** A request of at least half the standard block size never adds a block. */
  lemma LargeNeverGrows(p: Pool, h: Heap, len: nat)
    requires len <= SIZE_MAX && AlignUp(len) >= p.blockAlloc / 2 && Alloc(p, h, len).Ok?
    ensures |Alloc(p, h, len).value.pool.blocks| == |p.blocks|
  {
  }

  /** When block i is the first with room, it serves the request: its old
      cursor is returned, the cursor advances by the rounded length, and
      nothing else changes. */
  lemma AllocServesFirstFit(p: Pool, h: Heap, len: nat, i: nat)
    requires len <= SIZE_MAX && AlignUp(len) <= SIZE_MAX
    requires i < |p.blocks| && p.blocks[i].Fits(AlignUp(len))
    requires forall k :: 0 <= k < i ==> !p.blocks[k].Fits(AlignUp(len))
    ensures Alloc(p, h, len).Ok?
    ensures var a := Alloc(p, h, len).value;
      && a.ptr == p.blocks[i].nextFree
      && |a.pool.blocks| == |p.blocks|
      && a.pool.blocks[i] == p.blocks[i].(nextFree := p.blocks[i].nextFree + AlignUp(len))
      && (forall k :: 0 <= k < |p.blocks| && k != i ==> a.pool.blocks[k] == p.blocks[k])
      && a.pool.custom == p.custom
      && a.pool.poolAlloc == p.poolAlloc
      && a.pool.blockAlloc == p.blockAlloc
      && a.heap == h
  {
  }

  /** When no block has room and the rounded request is at least half the
      standard block size, it gets an oversized buffer of its own: the blocks
      are untouched, one fresh range is tracked, the count grows by its size. */
  lemma AllocOversized(p: Pool, h: Heap, len: nat)
    requires len <= SIZE_MAX && AlignUp(len) <= SIZE_MAX
    requires forall k :: 0 <= k < |p.blocks| ==> !p.blocks[k].Fits(AlignUp(len))
    requires AlignUp(len) >= p.blockAlloc / 2
    ensures Alloc(p, h, len).Ok?
    ensures var a := Alloc(p, h, len).value;
      && a.pool.blocks == p.blocks
      && |a.pool.custom| == |p.custom| + 1
      && a.pool.custom[..|p.custom|] == p.custom
      && a.pool.custom[|p.custom|] == Range(a.ptr, a.ptr + AlignUp(len))
      && h.top <= a.ptr
      && a.pool.poolAlloc == p.poolAlloc + AlignUp(len)
  {
    assert FirstFit(p.blocks, AlignUp(len)).None?;
  }

  /** When no block has room and the rounded request is below half the
      standard block size, one standard block is put at the head of the list
      and the request is served from its start. */
  lemma AllocGrows(p: Pool, h: Heap, len: nat)
    requires len <= SIZE_MAX && AlignUp(len) <= SIZE_MAX
    requires forall k :: 0 <= k < |p.blocks| ==> !p.blocks[k].Fits(AlignUp(len))
    requires AlignUp(len) < p.blockAlloc / 2 && HEADER + p.blockAlloc <= SIZE_MAX
    ensures Alloc(p, h, len).Ok?
    ensures var a := Alloc(p, h, len).value;
      && |a.pool.blocks| == |p.blocks| + 1
      && a.pool.blocks[1..] == p.blocks
      && a.pool.blocks[0].Capacity() == p.blockAlloc
      && a.ptr == a.pool.blocks[0].space
      && a.pool.blocks[0].nextFree == a.ptr + AlignUp(len)
      && h.top <= a.ptr - HEADER
      && a.pool.custom == p.custom
      && a.pool.poolAlloc == p.poolAlloc + HEADER + p.blockAlloc
  {
    assert FirstFit(p.blocks, AlignUp(len)).None?;
    var g := AllocBlock(p, h, p.blockAlloc).value;
    var a := Alloc(p, h, len).value;
    assert a.pool.blocks[1..] == g.pool.blocks[1..];
  }

  /** Wherever the rounded request fits in size_t, the code as written and the
      corrected allocation agree on whether the process dies, on the pool and
      on the heap. They return the same pointer except on the oversized path,
      where the code as written returns the stale slot instead. */
  lemma AllocAsWrittenAgrees(p: Pool, h: Heap, len: nat, stale: int)
    requires len <= SIZE_MAX && AlignUp(len) <= SIZE_MAX
    ensures AllocAsWritten(p, h, len, stale).Ok? <==> Alloc(p, h, len).Ok?
    ensures AllocAsWritten(p, h, len, stale).Ok? ==>
      var w, c := AllocAsWritten(p, h, len, stale).value, Alloc(p, h, len).value;
      && w.pool == c.pool && w.heap == c.heap
      && (if FirstFit(p.blocks, AlignUp(len)).None? && AlignUp(len) >= p.blockAlloc / 2
          then w.ptr == stale else w.ptr == c.ptr)
  {
  }

  /** Whenever the rounded request does not fit in size_t, the corrected
      allocation dies, while the code as written serves it as a zero-byte
      request: from a pool whose head block is in order, it returns that
      block's cursor, hands out nothing and leaves the pool as it was. */
  lemma AllocAsWrittenWraps(p: Pool, h: Heap, len: nat, stale: int)
    requires len <= SIZE_MAX && AlignUp(len) > SIZE_MAX
    ensures Alloc(p, h, len) == Die(SizeOverflow)
    ensures AllocAsWritten(p, h, len, stale) == AllocAsWritten(p, h, 0, stale)
    ensures |p.blocks| > 0 && p.blocks[0].nextFree <= p.blocks[0].end ==>
      AllocAsWritten(p, h, len, stale) == Ok(Alloced(p, h, p.blocks[0].nextFree))
  {
    AlignUpAsWrittenWraps(len);
    if |p.blocks| > 0 && p.blocks[0].nextFree <= p.blocks[0].end {
      assert p.blocks[0 := p.blocks[0].(nextFree := p.blocks[0].nextFree + 0)] == p.blocks;
    }
  }

  /** mem_pool_calloc hands out count * size fresh bytes, and keeps the pool valid. */
  lemma CallocSound(p: Pool, h: Heap, count: nat, size: nat, a: Alloced)
    requires Valid(p, h) && count <= SIZE_MAX && size <= SIZE_MAX
    requires Calloc(p, h, count, size) == Ok(a)
    ensures Valid(a.pool, a.heap)
    ensures Aligned(a.ptr)
    ensures Carves(p, a.pool, a.ptr, count * size)
  {
    var n := count * size;
    assert Alloc(p, h, n) == Ok(a);
    AllocSound(p, h, n, a);
  }

  /** A freshly made pool is valid. */
  lemma InitSound(h: Heap, initialSize: nat)
    requires initialSize <= SIZE_MAX && Init(None, h, initialSize).Ok?
    ensures var (p, h') := Init(None, h, initialSize).value;
      Valid(p, h') && h.top <= h'.top
  {
    var e := EmptyPool(GROWTH);
    assert Buffers(e) == [];
    if initialSize > 0 {
      AllocBlockSound(e, h, initialSize);
    }
  }

  /** A pool created on the same system allocator as an existing valid pool
      is apart from it, and leaves it valid. */
  lemma InitKeepsSeparate(other: Pool, h: Heap, initialSize: nat)
    requires Valid(other, h) && initialSize <= SIZE_MAX && Init(None, h, initialSize).Ok?
    ensures var (p, h') := Init(None, h, initialSize).value;
      Valid(other, h') && Separate(p, other)
  {
  }
}

=== FILE: combine.dfy ===
/**
  mem_pool_combine: move everything one pool holds into another. No byte is
  copied; only ownership moves. The source is left empty and reusable.
 */
module PoolCombine {
  import opened Memory
  import opened Ranges
  import opened MemPool
  import opened AllocFacts

  /** dst2 and src2 are dst and src after src has been merged into dst: dst's
      blocks followed by src's, dst's oversized buffers followed by src's, the
      byte counts summed, and src emptied, keeping only its growth size. */
  ghost predicate Merged(dst: Pool, src: Pool, dst2: Pool, src2: Pool) {
    && dst2.blocks == dst.blocks + src.blocks
    && dst2.custom == dst.custom + src.custom
    && dst2.poolAlloc == dst.poolAlloc + src.poolAlloc
    && dst2.blockAlloc == dst.blockAlloc
    && src2 == EmptyPool(src.blockAlloc)
  }

  /** mem_pool_combine: splice src's block list onto the tail of dst's, append
      src's oversized buffers one by one, move the byte count, and reset src. */
  method Combine(dst: Pool, src: Pool) returns (dst2: Pool, src2: Pool)
    ensures Merged(dst, src, dst2, src2)
  {
    var blocks := dst.blocks + src.blocks;
    var custom := dst.custom;
    var i := 0;
    while i < |src.custom|
      invariant 0 <= i <= |src.custom|
      invariant custom == dst.custom + src.custom[..i]
    {
      custom := custom + [src.custom[i]];
      i := i + 1;
    }
    dst2 := Pool(blocks, dst.blockAlloc, custom, dst.poolAlloc + src.poolAlloc);
    src2 := EmptyPool(src.blockAlloc);
  }

  lemma BlockRangesAppend(a: seq<Block>, b: seq<Block>)
    ensures Footprints(a + b) == Footprints(a) + Footprints(b)
    ensures Usables(a + b) == Usables(a) + Usables(b)
    ensures CarvedRanges(a + b) == CarvedRanges(a) + CarvedRanges(b)
  {
    assert forall k :: |a| <= k < |a + b| ==> (a + b)[k] == b[k - |a|];
  }

  /** After the merge, dst owns, and has handed out, exactly what the two
      pools did before; src owns nothing. */
  lemma CombineOwnership(dst: Pool, src: Pool, dst2: Pool, src2: Pool)
    requires Merged(dst, src, dst2, src2)
    ensures forall m :: Owns(dst2, m) <==> Owns(dst, m) || Owns(src, m)
    ensures forall m :: Used(dst2, m) <==> Used(dst, m) || Used(src, m)
    ensures forall m :: !Owns(src2, m) && !Used(src2, m)
  {
    BlockRangesAppend(dst.blocks, src.blocks);
    var U, U1, U2 := Usables(dst2.blocks) + dst2.custom, Usables(dst.blocks) + dst.custom, Usables(src.blocks) + src.custom;
    var C, C1, C2 := CarvedRanges(dst2.blocks) + dst2.custom, CarvedRanges(dst.blocks) + dst.custom, CarvedRanges(src.blocks) + src.custom;
    assert forall r :: r in U <==> r in U1 || r in U2;
    assert forall r :: r in C <==> r in C1 || r in C2;
    forall m ensures Owns(dst2, m) <==> Owns(dst, m) || Owns(src, m) {
      if Owns(dst2, m) {
        var r :| r in U && In(m, r);
        assert r in U1 || r in U2;
      }
      if Owns(dst, m) {
        var r :| r in U1 && In(m, r);
        assert r in U;
      }
      if Owns(src, m) {
        var r :| r in U2 && In(m, r);
        assert r in U;
      }
    }
    forall m ensures Used(dst2, m) <==> Used(dst, m) || Used(src, m) {
      if Used(dst2, m) {
        var r :| r in C && In(m, r);
        assert r in C1 || r in C2;
      }
      if Used(dst, m) {
        var r :| r in C1 && In(m, r);
        assert r in C;
      }
      if Used(src, m) {
        var r :| r in C2 && In(m, r);
        assert r in C;
      }
    }
    assert Usables(src2.blocks) + src2.custom == [];
    assert CarvedRanges(src2.blocks) + src2.custom == [];
  }

  /** Merging two valid pools that are apart gives a valid pool that keeps
      every block and buffer of both, and leaves a valid empty source. */
  lemma CombineSound(dst: Pool, src: Pool, dst2: Pool, src2: Pool, h: Heap)
    requires Valid(dst, h) && Valid(src, h) && Separate(dst, src)
    requires Merged(dst, src, dst2, src2)
    ensures Valid(dst2, h) && Valid(src2, h)
    ensures Grows(dst, dst2) && Grows(src, dst2)
    ensures dst2.poolAlloc + src2.poolAlloc == dst.poolAlloc + src.poolAlloc
  {
    BlockRangesAppend(dst.blocks, src.blocks);
    var FdB, FsB := Footprints(dst.blocks), Footprints(src.blocks);
    Shuffle(FdB, dst.custom, FsB, src.custom);
    assert Buffers(dst2) == FdB + FsB + dst.custom + src.custom;
    assert forall r :: r in Buffers(dst2) ==> r in Buffers(dst) || r in Buffers(src);
    forall k | 0 <= k < |Buffers(dst2)|
      ensures 0 <= Buffers(dst2)[k].start <= Buffers(dst2)[k].end <= h.top
    {
      var r := Buffers(dst2)[k];
      assert r in Buffers(dst2);
      if r in Buffers(dst) {
        var j :| 0 <= j < |Buffers(dst)| && Buffers(dst)[j] == r;
      } else {
        var j :| 0 <= j < |Buffers(src)| && Buffers(src)[j] == r;
      }
    }
    forall k | 0 <= k < |dst2.blocks| ensures BlockOk(dst2.blocks[k]) {
      if k >= |dst.blocks| {
        assert dst2.blocks[k] == src.blocks[k - |dst.blocks|];
      }
    }
    assert Buffers(src2) == [];
    assert forall k :: 0 <= k < |dst.blocks| ==> dst2.blocks[k] == dst.blocks[k];
    assert forall k :: 0 <= k < |dst.blocks| ==> Extends(dst.blocks[k], dst2.blocks[k]);
    assert forall k :: 0 <= k < |src.blocks| ==> dst2.blocks[|dst.blocks| + k] == src.blocks[k];
    assert forall k :: 0 <= k < |src.blocks| ==> Extends(src.blocks[k], dst2.blocks[|dst.blocks| + k]);
  }

  /** The emptied source is exactly what creating a pool without an initial
      block gives, so allocating from it behaves as from a new pool. */
  lemma CombineResetsSource(dst: Pool, src: Pool, dst2: Pool, src2: Pool, h: Heap)
    requires Merged(dst, src, dst2, src2) && src.blockAlloc == GROWTH
    ensures Init(None, h, 0) == Ok((src2, h))
  {
  }
}

=== FILE: memory.dfy ===
/**
  Platform constants, request rounding and the system allocator underneath
  the memory pool.

  Addresses are plain integers. The system allocator (`xmalloc`) is modelled
  as a bump counter over an unbounded address space, so every buffer it hands
  out is fresh: it starts at or above everything handed out before.
 */
module Memory {

  /** sizeof(uintmax_t): every request is rounded up to a multiple of it. A power of two. */
  const ALIGN: nat := 8

  /** sizeof(struct mp_block): the header in front of each block's usable space.
      Three pointers on an LP64 target; a multiple of ALIGN. */
  const HEADER: nat := 24

  /** The largest value of size_t. */
  const SIZE_MAX: nat := 0xFFFF_FFFF_FFFF_FFFF

  /** BLOCK_GROWTH_SIZE: capacity of a standard block, one mebibyte minus the header. */
  const GROWTH: nat := 1024 * 1024 - HEADER

  datatype Option<+T> = None | Some(value: T)

  /** The conditions under which the pool terminates the process instead of returning. */
  datatype Fatal = SizeOverflow

  /** Either a value, or the process dies with the given reason. */
  datatype Result<+T> = Ok(value: T) | Die(fatal: Fatal)

  predicate Aligned(a: int) {
    a % ALIGN == 0
  }

  lemma AlignedSum(a: int, b: int)
    requires Aligned(a) && Aligned(b)
    ensures Aligned(a + b) && Aligned(a - b)
  {
  }

  /** Round a request up to the alignment, in unbounded arithmetic.
      Since ALIGN is a power of two, `len & (ALIGN - 1)` is `len % ALIGN`. */
  function AlignUp(len: nat): (r: nat)
    ensures Aligned(r)
    ensures len <= r < len + ALIGN
    ensures Aligned(len) ==> r == len
  {
    if len % ALIGN != 0 then len + (ALIGN - len % ALIGN) else len
  }

  /** AlignUp is the least multiple of ALIGN that is at least len. */
  lemma AlignUpIsLeast(len: nat, k: int)
    requires Aligned(k) && len <= k
    ensures AlignUp(len) <= k
  {
  }

  /** The rounding as the C code performs it: in size_t arithmetic, which wraps
      modulo SIZE_MAX + 1 when len lies within ALIGN - 1 of SIZE_MAX. */
  function AlignUpAsWritten(len: nat): (r: nat)
    requires len <= SIZE_MAX
    ensures r <= SIZE_MAX
    ensures Aligned(r)
  {
    if len % ALIGN != 0 then (len + (ALIGN - len % ALIGN)) % (SIZE_MAX + 1) else len
  }

  /** Whenever the rounded size does not fit in size_t, the C rounding wraps
      to zero bytes, below the request. SIZE_MAX - 3 is one such request. */
  lemma AlignUpAsWrittenWraps(len: nat)
    requires len <= SIZE_MAX && AlignUp(len) > SIZE_MAX
    ensures !Aligned(len)
    ensures AlignUpAsWritten(len) == 0 < len
  {
  }

  /** Wherever the rounded size fits in size_t, the C rounding is the intended one. */
  lemma AlignUpAsWrittenAgrees(len: nat)
    requires len <= SIZE_MAX && AlignUp(len) <= SIZE_MAX
    ensures AlignUpAsWritten(len) == AlignUp(len)
  {
  }

  /** The rounding with the overflow the C code misses turned into a fatal error:
      it succeeds with the least aligned size_t that is at least len, and fails
      only when there is no such size_t. */
  function RoundedLen(len: nat): (r: Result<nat>)
    requires len <= SIZE_MAX
    ensures r.Ok? ==> len <= r.value <= SIZE_MAX && Aligned(r.value) && r.value < len + ALIGN
    ensures r.Ok? ==> forall k :: len <= k < r.value ==> !Aligned(k)
    ensures r.Die? ==> r.fatal == SizeOverflow && forall k :: len <= k <= SIZE_MAX ==> !Aligned(k)
  {
    var n := AlignUp(len);
    assert forall k :: len <= k && Aligned(k) ==> n <= k by {
      forall k | len <= k && Aligned(k) ensures n <= k {
        AlignUpIsLeast(len, k);
      }
    }
    if n <= SIZE_MAX then Ok(n) else Die(SizeOverflow)
  }

  /** The state of the system allocator: everything below `top` has been handed out. */
  datatype Heap = Heap(top: nat)

  /** xmalloc(size): a fresh, aligned buffer of `size` bytes. Allocation
      failure (which kills the process) is not modelled. */
  function Malloc(h: Heap, size: nat): (r: (nat, Heap))
    ensures Aligned(r.0)
    ensures h.top <= r.0
    ensures r.0 + size <= r.1.top
  {
    var p := AlignUp(h.top);
    (p, Heap(p + size))
  }
}

=== FILE: pool.dfy ===
/**
  The memory pool: a single-owner arena that carves small requests out of
  large blocks by bumping a cursor, serves oversized requests with buffers of
  their own, answers whether it owns an address, and hands out nothing twice.

  A pool is an immutable value. Every operation that changes it returns the
  new pool together with the new state of the system allocator.
 */
module MemPool {
  import opened Memory
  import opened Ranges

  /** struct mp_block: the usable bytes [space, end), handed out from `space`
      up to the cursor `nextFree`. The header occupies the HEADER bytes just
      below `space`. */
  datatype Block = Block(space: int, nextFree: int, end: int) {

    /** The block has room for len more bytes: end - next_free >= len. */
    predicate Fits(len: nat) {
      end - nextFree >= len
    }

    function Capacity(): int {
      end - space
    }

    /** The whole buffer obtained from the system allocator, header included. */
    function Footprint(): Range {
      Range(space - HEADER, end)
    }

    /** The addresses the pool answers for. */
    function Usable(): Range {
      Range(space, end)
    }

    /** The addresses already handed out to callers. */
    function Carved(): Range {
      Range(space, nextFree)
    }
  }

  /** struct mem_pool. `blocks` is the block list, head (most recent) first;
      `custom` holds the oversized buffers as [start, end) ranges in the order
      they were made (the arrays custom / custom_end side by side);
      `poolAlloc` counts every byte claimed from the system allocator. */
  datatype Pool = Pool(blocks: seq<Block>, blockAlloc: nat, custom: seq<Range>, poolAlloc: nat)

  /** The outcome of an allocation: the new pool, the new system allocator, and the pointer returned. */
  datatype Alloced = Alloced(pool: Pool, heap: Heap, ptr: int)

  /** The pool a fresh handle gets before any block is made. */
  function EmptyPool(blockAlloc: nat): Pool {
    Pool([], blockAlloc, [], 0)
  }

  function Footprints(bs: seq<Block>): seq<Range> {
    seq(|bs|, i requires 0 <= i < |bs| => bs[i].Footprint())
  }

  function Usables(bs: seq<Block>): seq<Range> {
    seq(|bs|, i requires 0 <= i < |bs| => bs[i].Usable())
  }

  function CarvedRanges(bs: seq<Block>): seq<Range> {
    seq(|bs|, i requires 0 <= i < |bs| => bs[i].Carved())
  }

  /** Every buffer the pool holds, block footprints first, then the oversized buffers. */
  function Buffers(p: Pool): seq<Range> {
    Footprints(p.blocks) + p.custom
  }

  /** mem_pool_contains's answer: m lies in the usable part of a block or in an oversized buffer. */
  ghost predicate Owns(p: Pool, m: int) {
    exists r :: r in Usables(p.blocks) + p.custom && In(m, r)
  }

  /** m has been handed out to a caller: it lies below the cursor of a block or in an oversized buffer. */
  ghost predicate Used(p: Pool, m: int) {
    exists r :: r in CarvedRanges(p.blocks) + p.custom && In(m, r)
  }

  /** The block invariant: the cursor lies within the block, and the block's
      start and every cursor position are aligned. */
  predicate BlockOk(b: Block) {
    && Aligned(b.space)
    && b.space <= b.nextFree <= b.end
    && Aligned(b.nextFree - b.space)
  }

  /** The pool invariant relative to the system allocator: the blocks are well
      formed, every buffer lies below the allocator's top, and no two buffers
      overlap. */
  ghost predicate Valid(p: Pool, h: Heap) {
    && p.blockAlloc <= SIZE_MAX
    && (forall i :: 0 <= i < |p.blocks| ==> BlockOk(p.blocks[i]))
    && Below(Buffers(p), h.top)
    && PairwiseApart(Buffers(p))
  }

  /** No buffer of p overlaps a buffer of q. */
  ghost predicate Separate(p: Pool, q: Pool) {
    AllApart(Buffers(p), Buffers(q))
  }

  /** mem_pool_alloc_block: claim HEADER + blockAlloc bytes from the system
      allocator, make them an empty block of capacity blockAlloc at the head of
      the list, and count them. The pointer returned is the block itself. The
      size computation is overflow-checked (st_add) and fatal on overflow. */
  function AllocBlock(pool: Pool, heap: Heap, blockAlloc: nat): (r: Result<Alloced>)
    ensures r.Die? <==> HEADER + blockAlloc > SIZE_MAX
    ensures r.Ok? ==>
      var q := r.value.pool;
      && |q.blocks| == |pool.blocks| + 1
      && q.blocks[1..] == pool.blocks
      && q.blocks[0].Capacity() == blockAlloc
      && q.blocks[0].nextFree == q.blocks[0].space
      && Aligned(q.blocks[0].space)
      && heap.top <= q.blocks[0].space - HEADER
      && q.blocks[0].end <= r.value.heap.top
      && r.value.ptr == q.blocks[0].space - HEADER
      && q.custom == pool.custom
      && q.blockAlloc == pool.blockAlloc
      && q.poolAlloc == pool.poolAlloc + HEADER + blockAlloc
  {
    if HEADER + blockAlloc > SIZE_MAX then Die(SizeOverflow)
    else
      var (p, heap') := Malloc(heap, HEADER + blockAlloc);
      AlignedSum(p, HEADER);
      var b := Block(p + HEADER, p + HEADER, p + HEADER + blockAlloc);
      var q := pool.(blocks := [b] + pool.blocks, poolAlloc := pool.poolAlloc + HEADER + blockAlloc);
      assert q.blocks[1..] == pool.blocks;
      Ok(Alloced(q, heap', p))
  }

  /** mem_pool_alloc_custom with its return value corrected: a fresh buffer of
      exactly len bytes, recorded at the end of the oversized list and counted;
      the pointer returned is that buffer. No block changes. */
  function AllocCustom(pool: Pool, heap: Heap, len: nat): (r: Alloced)
    ensures r.pool.blocks == pool.blocks && r.pool.blockAlloc == pool.blockAlloc
    ensures r.pool.custom == pool.custom + [Range(r.ptr, r.ptr + len)]
    ensures heap.top <= r.ptr && Aligned(r.ptr) && r.ptr + len <= r.heap.top
    ensures r.pool.poolAlloc == pool.poolAlloc + len
  {
    var (p, heap') := Malloc(heap, len);
    Alloced(pool.(custom := pool.custom + [Range(p, p + len)], poolAlloc := pool.poolAlloc + len), heap', p)
  }

  /** mem_pool_alloc_custom as the C code has it: the same bookkeeping, but the
      pointer returned is read from the tracking array one slot past the entry
      just written, after the count was incremented. The pool never stores
      anything there; `stale` is whatever that slot happens to hold. */
  function AllocCustomAsWritten(pool: Pool, heap: Heap, len: nat, stale: int): (r: Alloced)
    ensures r.pool == AllocCustom(pool, heap, len).pool
    ensures r.heap == AllocCustom(pool, heap, len).heap
  {
    AllocCustom(pool, heap, len).(ptr := stale)
  }

  /** The scan in mem_pool_alloc: the first block in list order with at least
      len bytes left, or None when no block has room. */
  function FirstFit(bs: seq<Block>, len: nat): (r: Option<nat>)
    ensures r.Some? ==> r.value < |bs| && bs[r.value].Fits(len)
    ensures r.Some? ==> forall k :: 0 <= k < r.value ==> !bs[k].Fits(len)
    ensures r.None? ==> forall k :: 0 <= k < |bs| ==> !bs[k].Fits(len)
  {
    if |bs| == 0 then None
    else if bs[0].Fits(len) then Some(0)
    else match FirstFit(bs[1..], len)
      case None =>
        assert forall k :: 1 <= k < |bs| ==> bs[k] == bs[1..][k - 1];
        None
      case Some(i) =>
        assert forall k :: 1 <= k <= i ==> bs[k] == bs[1..][k - 1];
        Some(i + 1)
  }

  /** Hand out n bytes at block i's cursor: the old cursor is returned and the cursor advances by n. */
  function Bump(pool: Pool, heap: Heap, i: nat, n: nat): Alloced
    requires i < |pool.blocks| && pool.blocks[i].Fits(n)
  {
    var b := pool.blocks[i];
    Alloced(pool.(blocks := pool.blocks[i := b.(nextFree := b.nextFree + n)]), heap, b.nextFree)
  }

  /** mem_pool_alloc: round len up to the alignment; serve it from the first
      block with room; failing that, give it a buffer of its own when it is at
      least half the standard block size, and otherwise grow the list by one
      standard block and serve it from there. This is the corrected program:
      the rounding that overflows size_t is fatal (RoundedLen) and the
      oversized path returns its buffer (AllocCustom); AllocAsWritten is the
      code as it stands. */
  function Alloc(pool: Pool, heap: Heap, len: nat): (r: Result<Alloced>)
    requires len <= SIZE_MAX
    ensures r.Die? ==> r.fatal == SizeOverflow
    ensures r.Die? <==>
      || AlignUp(len) > SIZE_MAX
      || (&& FirstFit(pool.blocks, AlignUp(len)).None?
          && AlignUp(len) < pool.blockAlloc / 2
          && HEADER + pool.blockAlloc > SIZE_MAX)
    ensures r.Ok? ==> r.value.pool.blockAlloc == pool.blockAlloc
    ensures r.Ok? ==> heap.top <= r.value.heap.top && pool.poolAlloc <= r.value.pool.poolAlloc
    ensures r.Ok? ==> |pool.blocks| <= |r.value.pool.blocks| && |pool.custom| <= |r.value.pool.custom|
  {
    match RoundedLen(len)
    case Die(e) => Die(e)
    case Ok(n) =>
      match FirstFit(pool.blocks, n)
      case Some(i) => Ok(Bump(pool, heap, i, n))
      case None =>
        if n >= pool.blockAlloc / 2 then Ok(AllocCustom(pool, heap, n))
        else match AllocBlock(pool, heap, pool.blockAlloc)
          case Die(e) => Die(e)
          case Ok(g) => Ok(Bump(g.pool, g.heap, 0, n))
  }

  /** mem_pool_alloc as the C code has it: the rounding is done in size_t and
      wraps (AlignUpAsWritten), and the oversized path returns the stale slot
      `stale` (AllocCustomAsWritten). Only a new block's size is checked. */
  function AllocAsWritten(pool: Pool, heap: Heap, len: nat, stale: int): (r: Result<Alloced>)
    requires len <= SIZE_MAX
    ensures r.Die? ==> r.fatal == SizeOverflow
    ensures r.Die? ==> HEADER + pool.blockAlloc > SIZE_MAX
    ensures r.Ok? ==> r.value.pool.blockAlloc == pool.blockAlloc
    ensures r.Ok? ==> heap.top <= r.value.heap.top && pool.poolAlloc <= r.value.pool.poolAlloc
  {
    var n := AlignUpAsWritten(len);
    match FirstFit(pool.blocks, n)
    case Some(i) => Ok(Bump(pool, heap, i, n))
    case None =>
      if n >= pool.blockAlloc / 2 then Ok(AllocCustomAsWritten(pool, heap, n, stale))
      else match AllocBlock(pool, heap, pool.blockAlloc)
        case Die(e) => Die(e)
        case Ok(g) => Ok(Bump(g.pool, g.heap, 0, n))
  }

  /** mem_pool_calloc: count * size bytes, overflow-checked (st_mult) and fatal
      on overflow, then as mem_pool_alloc. The zero fill is not modelled. */
  function Calloc(pool: Pool, heap: Heap, count: nat, size: nat): (r: Result<Alloced>)
    requires count <= SIZE_MAX && size <= SIZE_MAX
    ensures count * size > SIZE_MAX ==> r == Die(SizeOverflow)
    ensures count * size <= SIZE_MAX ==> r == Alloc(pool, heap, count * size)
  {
    if count * size > SIZE_MAX then Die(SizeOverflow)
    else Alloc(pool, heap, count * size)
  }

  /** mem_pool_init: a handle that already holds a pool is left alone; an empty
      one gets a pool with the standard growth size, no oversized buffers and,
      when initialSize > 0, one block of exactly initialSize bytes. */
  function Init(handle: Option<Pool>, heap: Heap, initialSize: nat): (r: Result<(Pool, Heap)>)
    requires initialSize <= SIZE_MAX
    ensures handle.Some? ==> r == Ok((handle.value, heap))
    ensures handle.None? && initialSize == 0 ==> r == Ok((EmptyPool(GROWTH), heap))
    ensures handle.None? && initialSize > 0 ==> (r.Die? <==> HEADER + initialSize > SIZE_MAX)
    ensures handle.None? && initialSize > 0 && r.Ok? ==>
      var p := r.value.0;
      && |p.blocks| == 1
      && p.blocks[0].Capacity() == initialSize
      && p.blocks[0].nextFree == p.blocks[0].space
      && p.custom == []
      && p.blockAlloc == GROWTH
      && p.poolAlloc == HEADER + initialSize
  {
    match handle
    case Some(p) => Ok((p, heap))
    case None =>
      if initialSize > 0 then
        match AllocBlock(EmptyPool(GROWTH), heap, initialSize)
        case Die(e) => Die(e)
        case Ok(a) => Ok((a.pool, a.heap))
      else Ok((EmptyPool(GROWTH), heap))
  }

  /** mem_pool_contains: scan the blocks, then the oversized buffers, for one
      that holds m. */
  method Contains(pool: Pool, m: int) returns (found: bool)
    ensures found <==>
      || (exists i :: 0 <= i < |pool.blocks| && pool.blocks[i].space <= m < pool.blocks[i].end)
      || (exists j :: 0 <= j < |pool.custom| && pool.custom[j].start <= m < pool.custom[j].end)
    ensures found <==> Owns(pool, m)
  {
    var i := 0;
    while i < |pool.blocks|
      invariant 0 <= i <= |pool.blocks|
      invariant forall k :: 0 <= k < i ==> !(pool.blocks[k].space <= m < pool.blocks[k].end)
    {
      if pool.blocks[i].space <= m && m < pool.blocks[i].end {
        assert Usables(pool.blocks)[i] in Usables(pool.blocks) + pool.custom;
        return true;
      }
      i := i + 1;
    }
    var j := 0;
    while j < |pool.custom|
      invariant 0 <= j <= |pool.custom|
      invariant forall k :: 0 <= k < j ==> !(pool.custom[k].start <= m < pool.custom[k].end)
    {
      if pool.custom[j].start <= m && m < pool.custom[j].end {
        assert pool.custom[j] in Usables(pool.blocks) + pool.custom;
        return true;
      }
      j := j + 1;
    }
    forall r | r in Usables(pool.blocks) + pool.custom ensures !In(m, r) {
      if r !in pool.custom {
        var k :| 0 <= k < |pool.blocks| && Usables(pool.blocks)[k] == r;
      }
    }
    return false;
  }
}

=== FILE: ranges.dfy ===
/**
  Half-open address ranges and the disjointness facts the pool relies on.
 */
module Ranges {

  /** The addresses start <= m < end. */
  datatype Range = Range(start: int, end: int)

  predicate In(m: int, r: Range) {
    r.start <= m < r.end
  }

  /** The two ranges share no address: one of them is empty or they do not overlap. */
  predicate Apart(a: Range, b: Range) {
    a.end <= a.start || b.end <= b.start || a.end <= b.start || b.end <= a.start
  }

  /** No two ranges at different positions share an address. */
  predicate PairwiseApart(rs: seq<Range>) {
    forall i, j :: 0 <= i < |rs| && 0 <= j < |rs| && i != j ==> Apart(rs[i], rs[j])
  }

  /** No range of xs shares an address with a range of ys. */
  predicate AllApart(xs: seq<Range>, ys: seq<Range>) {
    forall i, j :: 0 <= i < |xs| && 0 <= j < |ys| ==> Apart(xs[i], ys[j])
  }

  /** Every range is well formed, non-negative and lies below `top`. */
  predicate Below(rs: seq<Range>, top: int) {
    forall i :: 0 <= i < |rs| ==> 0 <= rs[i].start <= rs[i].end <= top
  }

  /** Ranges with no address in common are apart. */
  lemma ApartFromAddresses(a: Range, b: Range)
    requires forall m :: In(m, a) ==> !In(m, b)
    ensures Apart(a, b)
  {
    var m := if a.start <= b.start then b.start else a.start;
    assert In(m, a) ==> !In(m, b);
  }

  lemma AllApartSymmetric(xs: seq<Range>, ys: seq<Range>)
    requires AllApart(xs, ys)
    ensures AllApart(ys, xs)
  {
  }

  lemma {:induction false} AllApartSplitLeft(a1: seq<Range>, a2: seq<Range>, b: seq<Range>)
    ensures AllApart(a1 + a2, b) <==> AllApart(a1, b) && AllApart(a2, b)
  {
    if AllApart(a1, b) && AllApart(a2, b) {
      forall i, j | 0 <= i < |a1 + a2| && 0 <= j < |b| ensures Apart((a1 + a2)[i], b[j]) {
        if i >= |a1| {
          assert (a1 + a2)[i] == a2[i - |a1|];
        }
      }
    }
    if AllApart(a1 + a2, b) {
      forall i, j | 0 <= i < |a1| && 0 <= j < |b| ensures Apart(a1[i], b[j]) {
        assert (a1 + a2)[i] == a1[i];
      }
      forall i, j | 0 <= i < |a2| && 0 <= j < |b| ensures Apart(a2[i], b[j]) {
        assert (a1 + a2)[|a1| + i] == a2[i];
      }
    }
  }

  lemma {:induction false} AllApartSplitRight(a: seq<Range>, b1: seq<Range>, b2: seq<Range>)
    ensures AllApart(a, b1 + b2) <==> AllApart(a, b1) && AllApart(a, b2)
  {
    if AllApart(a, b1) && AllApart(a, b2) {
      forall i, j | 0 <= i < |a| && 0 <= j < |b1 + b2| ensures Apart(a[i], (b1 + b2)[j]) {
        if j >= |b1| {
          assert (b1 + b2)[j] == b2[j - |b1|];
        }
      }
    }
    if AllApart(a, b1 + b2) {
      forall i, j | 0 <= i < |a| && 0 <= j < |b1| ensures Apart(a[i], b1[j]) {
        assert (b1 + b2)[j] == b1[j];
      }
      forall i, j | 0 <= i < |a| && 0 <= j < |b2| ensures Apart(a[i], b2[j]) {
        assert (b1 + b2)[|b1| + j] == b2[j];
      }
    }
  }

  /** A concatenation is pairwise apart exactly when both halves are and they are apart from each other. */
  lemma {:induction false} PairwiseApartConcat(a: seq<Range>, b: seq<Range>)
    ensures PairwiseApart(a + b) <==> PairwiseApart(a) && PairwiseApart(b) && AllApart(a, b)
  {
    var ab := a + b;
    if PairwiseApart(ab) {
      forall i, j | 0 <= i < |a| && 0 <= j < |a| && i != j ensures Apart(a[i], a[j]) {
        assert ab[i] == a[i] && ab[j] == a[j];
      }
      forall i, j | 0 <= i < |b| && 0 <= j < |b| && i != j ensures Apart(b[i], b[j]) {
        assert ab[|a| + i] == b[i] && ab[|a| + j] == b[j];
      }
      forall i, j | 0 <= i < |a| && 0 <= j < |b| ensures Apart(a[i], b[j]) {
        assert ab[i] == a[i] && ab[|a| + j] == b[j];
      }
    }
    if PairwiseApart(a) && PairwiseApart(b) && AllApart(a, b) {
      forall i, j | 0 <= i < |ab| && 0 <= j < |ab| && i != j ensures Apart(ab[i], ab[j]) {
        if i < |a| && j < |a| {
          assert ab[i] == a[i] && ab[j] == a[j];
        } else if i < |a| {
          assert ab[i] == a[i] && ab[j] == b[j - |a|];
        } else if j < |a| {
          assert ab[i] == b[i - |a|] && ab[j] == a[j];
        } else {
          assert ab[i] == b[i - |a|] && ab[j] == b[j - |a|];
        }
      }
    }
  }

  /** Interleaving two pairwise-apart, mutually apart collections keeps them pairwise apart. */
  lemma Shuffle(a1: seq<Range>, a2: seq<Range>, b1: seq<Range>, b2: seq<Range>)
    requires PairwiseApart(a1 + a2) && PairwiseApart(b1 + b2)
    requires AllApart(a1 + a2, b1 + b2)
    ensures PairwiseApart(a1 + b1 + a2 + b2)
  {
    PairwiseApartConcat(a1, a2);
    PairwiseApartConcat(b1, b2);
    AllApartSplitLeft(a1, a2, b1 + b2);
    AllApartSplitRight(a1, b1, b2);
    AllApartSplitRight(a2, b1, b2);
    AllApartSymmetric(a2, b1);
    PairwiseApartConcat(a1, b1);
    PairwiseApartConcat(a2, b2);
    AllApartSplitRight(a1, a2, b2);
    AllApartSplitRight(b1, a2, b2);
    AllApartSplitLeft(a1, b1, a2 + b2);
    PairwiseApartConcat(a1 + b1, a2 + b2);
    assert a1 + b1 + a2 + b2 == (a1 + b1) + (a2 + b2);
  }

  /** A range starting at or above `top` is apart from every range below `top`. */
  lemma FreshApart(rs: seq<Range>, top: int, r: Range)
    requires Below(rs, top) && top <= r.start
    ensures AllApart([r], rs) && AllApart(rs, [r])
  {
  }

  /** Raising the ceiling keeps ranges below it. */
  lemma BelowRaise(rs: seq<Range>, top: int, top': int)
    requires Below(rs, top) && top <= top'
    ensures Below(rs, top')
  {
  }
}

=== FILE: scenarios.dfy ===
/**
  The pool on concrete inputs, and the inputs that expose the pointer returned
  by the oversized path and the wrapping rounding.
 */
module Scenarios {
  import opened Memory
  import opened Ranges
  import opened MemPool
  import opened AllocFacts

  lemma EmptyPoolValid(blockAlloc: nat, h: Heap)
    requires blockAlloc <= SIZE_MAX
    ensures Valid(EmptyPool(blockAlloc), h)
  {
    assert Buffers(EmptyPool(blockAlloc)) == [];
  }

  /** Two 16-byte requests on a pool made without an initial block: the first
      grows the pool by one standard block and takes its start, the second
      follows it 16 bytes on in the same block, and the pool owns both. */
  lemma BasicBump(h: Heap)
    ensures Alloc(EmptyPool(GROWTH), h, 16).Ok?
    ensures var a1 := Alloc(EmptyPool(GROWTH), h, 16).value;
      && Alloc(a1.pool, a1.heap, 16).Ok?
      && var a2 := Alloc(a1.pool, a1.heap, 16).value;
      && |a2.pool.blocks| == 1
      && a2.ptr == a1.ptr + 16
      && Owns(a2.pool, a1.ptr) && Owns(a2.pool, a2.ptr)
  {
    var p := EmptyPool(GROWTH);
    EmptyPoolValid(GROWTH, h);
    AllocGrows(p, h, 16);
    var a1 := Alloc(p, h, 16).value;
    AllocSound(p, h, 16, a1);
    AllocServesFirstFit(a1.pool, a1.heap, 16, 0);
    var a2 := Alloc(a1.pool, a1.heap, 16).value;
    AllocSound(a1.pool, a1.heap, 16, a2);
    GrowsKeeps(a1.pool, a2.pool, a1.ptr);
  }

  /** With a 64-byte growth size (the `block_alloc` field set by a caller; the
      pool's own initialisation always uses GROWTH) and no block yet, a 40-byte
      request is at least half a block and finds no room, so two of them each
      get an oversized buffer and no block is made. */
  lemma FortyOfSixtyFourIsOversized(h: Heap)
    ensures Alloc(EmptyPool(64), h, 40).Ok?
    ensures var a1 := Alloc(EmptyPool(64), h, 40).value;
      && Alloc(a1.pool, a1.heap, 40).Ok?
      && var a2 := Alloc(a1.pool, a1.heap, 40).value;
      && a2.pool.blocks == []
      && |a2.pool.custom| == 2
      && a2.pool.custom[0] == Range(a1.ptr, a1.ptr + 40)
      && a2.pool.custom[1] == Range(a2.ptr, a2.ptr + 40)
  {
    AllocOversized(EmptyPool(64), h, 40);
    var a1 := Alloc(EmptyPool(64), h, 40).value;
    AllocOversized(a1.pool, a1.heap, 40);
  }

  /** With a 1024-byte growth size (the `block_alloc` field set by a caller)
      and no block yet, a 600-byte request is
      served by the oversized path: the block count stays, one buffer is added. */
  lemma OversizedBypass(h: Heap)
    ensures Alloc(EmptyPool(1024), h, 600).Ok?
    ensures var a := Alloc(EmptyPool(1024), h, 600).value;
      && |a.pool.blocks| == 0
      && |a.pool.custom| == 1
      && a.pool.poolAlloc == 600
  {
    AllocOversized(EmptyPool(1024), h, 600);
  }

  /** calloc(SIZE_MAX, 2) dies instead of returning a short buffer. */
  lemma CallocOverflowDies(p: Pool, h: Heap)
    ensures Calloc(p, h, SIZE_MAX, 2) == Die(SizeOverflow)
  {
  }

  /** The oversized path as written returns whatever the tracking array holds
      past the new entry. When that slot holds 0, the caller gets address 0,
      which the pool does not own, instead of its buffer at 4096, which it does. */
  lemma CustomReturnMissesBuffer()
    ensures var asWritten := AllocCustomAsWritten(EmptyPool(GROWTH), Heap(4096), 1024 * 1024, 0);
      && asWritten.ptr == 0
      && !Owns(asWritten.pool, asWritten.ptr)
    ensures var corrected := AllocCustom(EmptyPool(GROWTH), Heap(4096), 1024 * 1024);
      && corrected.ptr == 4096
      && Owns(corrected.pool, corrected.ptr)
  {
    var h := Heap(4096);
    var corrected := AllocCustom(EmptyPool(GROWTH), h, 1024 * 1024);
    EmptyPoolValid(GROWTH, h);
    AllocCustomSound(EmptyPool(GROWTH), h, 1024 * 1024);
    assert corrected.pool.custom == [Range(4096, 4096 + 1024 * 1024)];
    var q := corrected.pool;
    forall r | r in Usables(q.blocks) + q.custom ensures !In(0, r) {
      assert r == Range(4096, 4096 + 1024 * 1024);
    }
  }

  /** On a pool with one 64-byte block, a request of SIZE_MAX - 3 bytes dies
      in the corrected program. As written, its rounding wraps to zero, so the
      caller gets the block's cursor with no bytes behind it, and the next
      16-byte request is handed the very same address. */
  lemma HugeRequestSharesAddress(h: Heap)
    ensures AllocBlock(EmptyPool(GROWTH), h, 64).Ok?
    ensures var g := AllocBlock(EmptyPool(GROWTH), h, 64).value;
      && Alloc(g.pool, g.heap, SIZE_MAX - 3) == Die(SizeOverflow)
      && AllocAsWritten(g.pool, g.heap, SIZE_MAX - 3, 0) == Ok(Alloced(g.pool, g.heap, g.pool.blocks[0].space))
      && AllocAsWritten(g.pool, g.heap, 16, 0).Ok?
      && AllocAsWritten(g.pool, g.heap, 16, 0).value.ptr == g.pool.blocks[0].space
  {
    var g := AllocBlock(EmptyPool(GROWTH), h, 64).value;
    AllocAsWrittenWraps(g.pool, g.heap, SIZE_MAX - 3, 0);
  }

  /** A request of SIZE_MAX - 3 bytes is far above half the growth size, and
      the corrected program dies on it. As written, its rounding wraps to zero,
      so on a pool without blocks it is served by adding a standard block. */
  lemma WrappedRequestGrows(h: Heap)
    ensures AlignUp(SIZE_MAX - 3) >= GROWTH / 2
    ensures Alloc(EmptyPool(GROWTH), h, SIZE_MAX - 3) == Die(SizeOverflow)
    ensures AllocAsWritten(EmptyPool(GROWTH), h, SIZE_MAX - 3, 0).Ok?
    ensures |AllocAsWritten(EmptyPool(GROWTH), h, SIZE_MAX - 3, 0).value.pool.blocks| == 1
  {
  }
}
